=== FILE: README.md ===
# ND4J workspaces, modelled in Dafny

ND4J serves the buffers of its numeric arrays from *workspaces*: scope-bound arenas that
hand out memory by bumping an offset into a pre-reserved pool. A workspace is built from a
`WorkspaceConfiguration` (initial size, maximum size, overallocation limit and four
policies: allocation STRICT/OVERALLOCATE, learning NONE/FIRST_LOOP/OVER_TIME, mirroring and
spill EXTERNAL/FAIL). Scopes are entered and left in cycles; the learning policy decides the
pool size from what the cycles asked for. A per-thread manager keeps the current workspace
and a stack of scope guards, and every buffer carries a tag saying whether its bytes belong
to a workspace (`isAttached`) and whether the cycle that produced them is still open
(`isInScope`). Buffers can be moved to the enclosing workspace (`leverage`) or out of all
workspaces (`detach`, `createUninitializedDetached`).

The behaviour is pinned down by the JUnit suite `BasicWorkspaceTests.java`; the
implementation classes (`Nd4jWorkspace`, the workspace and memory managers) are not part of
this model. The rules below are of two kinds: those an assertion of the suite forces, and
those chosen from the workspace's design where the suite is silent; each is marked.

Files, one module each:

- `outcomes.dfy` (`Outcomes`): `Option`, `Result` and the two faults, `CapacityExceeded`
  (the suite's `ND4JIllegalStateException`) and `ScopeDisciplineViolation`.
- `sizing.dfy` (`Sizing`): byte sizes (4 bytes per element, the suite forces FLOAT), 8-byte
  alignment, the overallocation coefficient and the size cap.
- `config.dfy` (`Config`): the policies, the configuration and the size a workspace commits to.
- `arena.dfy` (`Arena`): one workspace as an immutable record with pure transitions:
  `New`, `Allocate`, `Enter`/`Leave` (`notifyScopeEntered`/`notifyScopeLeft`),
  `Initialize` (`initializeWorkspace`), `ToggleWorkspaceUse`.
- `cycles.dfy` (`Cycles`): lists of requests and of whole cycles, and the properties of
  bumping, learning and toggling over them.
- `manager.dfy` (`Manager`): the per-thread manager, scope guards, buffer tags and the
  ownership transfers.
- `scenarios.dfy` (`Scenarios`): each test replayed against the model; a method's
  out-parameters are the values the test asserts and its `ensures` are the expected numbers.
  Each scenario starts from a fresh per-thread registry (`Empty()`). The suite reuses the
  names "ITER" and "EXT" with different configurations across tests, and its `@After` only
  clears the current workspace, so the scenarios assume the registry is reset between tests
  by something outside `BasicWorkspaceTests.java`.

Rules forced by an assertion of the suite:

- Every request is rounded up to a multiple of 8 bytes (5 floats occupy 24 bytes).
- A configuration with a nonzero initial size commits its pool at construction, so requests
  are carved even before any scope is entered (testAllocation1-6, testOverallocation1).
- The outermost enter starts a cycle at offset 0, and the outermost leave also puts the offset
  back to 0 (the suite reads 0 right after leaving, lines 404, 413, 436 and 521).
- What a cycle "used" is the sum of the aligned sizes of all its requests, whether carved or
  spilled, except those made while workspace use is toggled off. A peak-offset reading would
  give 400 bytes in testLoops3, where the offset stays 0; the suite expects 440. The learned
  size is the largest such sum over the completed cycles (testLoops2 commits 400, not the total).
- FIRST_LOOP commits the pool when its first cycle ends (testOverallocation2, testLoops3);
  OVER_TIME never commits on its own (100 cycles leave the size at 0) and waits for
  `initializeWorkspace`.
- While the pool is uncommitted, an EXTERNAL spill is still attached to the workspace and tied
  to the current cycle (testIsAttached1, testScope2); a request made with workspace use off
  leaves the offset alone (testToggle1).
- A buffer made in a scope is in scope until that scope is left, and out of scope afterwards
  (testScope1, testScope2); a detached buffer is in scope and unattached (testDetach1).
- `scopeOutOfWorkspaces` makes new buffers unattached until its guard is released
  (testOutOfScope1); `leverage` from a nested workspace carves the copy from the enclosing
  one and attaches it there (testLeverage1).
- Buffers created by array operations are explicit requests: `dup` asks for the same size
  again, and a reduction such as `sumNumber` asks for one extra float (4 bytes, 8 aligned) in
  the current workspace. This is why testLoops1 commits 48 bytes for a cycle of 10 floats.

Rules chosen from the workspace's design where the suite is silent:

- FIRST_LOOP commits at the end of a cycle only while the pool is still uncommitted, so later
  cycles never resize it; no test reads a FIRST_LOOP size after a second cycle changes usage.
- A spill from a committed EXTERNAL pool that is too small is a standalone, unattached
  allocation; no test overflows an EXTERNAL pool. Any request made with workspace use off is
  standalone and unattached as well.
- Under FAIL, a refused request changes nothing, not even the cycle's usage (testAllocation4
  only reads the offset).
- A buffer tag records the owning workspace and its *generation*, which moves at each
  outermost enter and at each `initializeWorkspace`. An attached buffer is in scope while its
  workspace is inside a scope of the same generation, so a buffer of an earlier cycle never
  comes back into scope.
- The use toggle belongs to the scope: both the outermost enter and the outermost leave
  switch pool use back on, so a scope left with use off carries that neither into requests
  made outside any scope nor into the next cycle.
- Every `notifyScopeEntered` (directly or through `getAndActivateWorkspace`) makes the
  workspace current and pushes a guard that remembers the previous current workspace;
  releasing a guard that is not the innermost one is a `ScopeDisciplineViolation`
  (try-with-resources never releases out of order).
- `leverage` copies into the workspace that was current when the current one was entered,
  provided that is a different workspace; with no such workspace (including one installed
  with `setCurrentWorkspace` and then entered, whose guard remembers itself) the copy is
  detached.

## Model

| member | source | states |
|---|---|---|
| Sizing.Align | nd4j-backends/nd4j-tests/src/test/java/org/nd4j/linalg/workspace/BasicWorkspaceTests.java:96-97 | the rounded size is a multiple of 8 and lies between the request and the request plus 7 |
| Sizing.AlignIsLeast | nd4j-backends/nd4j-tests/src/test/java/org/nd4j/linalg/workspace/BasicWorkspaceTests.java:96-97 | no multiple of 8 that holds the request is smaller than its rounded size |
| Sizing.SuiteRoundingAgrees | nd4j-backends/nd4j-tests/src/test/java/org/nd4j/linalg/workspace/BasicWorkspaceTests.java:96-97 | for whole floats the suite's expected size `b + b % 8` equals 8-byte rounding |
| Sizing.SuiteRoundingMisaligns | nd4j-backends/nd4j-tests/src/test/java/org/nd4j/linalg/workspace/BasicWorkspaceTests.java:96-97 | `b + b % 8` is a multiple of 8 exactly when b is a multiple of 4 |
| Sizing.WithOverallocation | nd4j-backends/nd4j-tests/src/test/java/org/nd4j/linalg/workspace/BasicWorkspaceTests.java:288-289 | the inflated size is aligned and is at least the size plus the overallocated share |
| Sizing.OverallocationDoubles | nd4j-backends/nd4j-tests/src/test/java/org/nd4j/linalg/workspace/BasicWorkspaceTests.java:288-289 | an overallocation limit of 1.0 doubles an aligned size |
| Sizing.Clamp | nd4j-backends/nd4j-tests/src/test/java/org/nd4j/linalg/workspace/BasicWorkspaceTests.java:34-36 | a zero maximum leaves the size alone; otherwise the result is the size or the maximum, whichever is smaller |
| Config.CommitSize | nd4j-backends/nd4j-tests/src/test/java/org/nd4j/linalg/workspace/BasicWorkspaceTests.java:320-332 | the committed size respects a nonzero maximum, and is either that maximum or an aligned size holding the learned bytes; under STRICT within the maximum it is exactly the aligned learned size; under OVERALLOCATE it is below the aligned learned size plus its overallocated share plus 8, and, when the maximum leaves room for that, at least the aligned learned size plus its share |
| Config.CommitDoublesUnderFullOverallocation | nd4j-backends/nd4j-tests/src/test/java/org/nd4j/linalg/workspace/BasicWorkspaceTests.java:314-315 | OVERALLOCATE with limit 1.0 commits twice the aligned learned size |
| Arena.New | nd4j-backends/nd4j-tests/src/test/java/org/nd4j/linalg/workspace/BasicWorkspaceTests.java:320-332 | the workspace carries the configuration it was built from; a nonzero initial size commits the pool at construction, a zero one leaves it uncommitted; it starts outside any scope at offset 0, with no usage or learned size, and valid |
| Arena.Allocate | nd4j-backends/nd4j-tests/src/test/java/org/nd4j/linalg/workspace/BasicWorkspaceTests.java:594-611 | refused (CapacityExceeded) exactly when use is on, the request does not fit and the spill policy is FAIL; carved exactly when use is on and it fits, at the old offset, moving the offset by the aligned size; otherwise the offset stays; the cycle's usage grows by the aligned size unless use is off; size, scope and generation never change |
| Arena.Enter | nd4j-backends/nd4j-tests/src/test/java/org/nd4j/linalg/workspace/BasicWorkspaceTests.java:399-410 | the outermost entry starts a cycle at offset 0 with no usage, a new generation and pool use switched on; a nested entry only deepens the scope |
| Arena.Leave | nd4j-backends/nd4j-tests/src/test/java/org/nd4j/linalg/workspace/BasicWorkspaceTests.java:426-437 | refused exactly when no scope is open; a nested leave only lowers the depth; the outermost leave resets the offset and the usage, counts the cycle, records the larger of the previous maximum and this cycle's usage, switches pool use back on, and changes nothing else except that under FIRST_LOOP with no pool it commits `CommitSize` of the learned maximum and moves the generation; otherwise size and generation stay |
| Arena.Initialize | nd4j-backends/nd4j-tests/src/test/java/org/nd4j/linalg/workspace/BasicWorkspaceTests.java:461-463 | the size becomes the committed form of the largest cycle seen, the offset restarts at 0 and the generation moves on |
| Arena.ToggleWorkspaceUse | nd4j-backends/nd4j-tests/src/test/java/org/nd4j/linalg/workspace/BasicWorkspaceTests.java:348 | only the use flag changes |
| Arena.FailThenFitBumps | nd4j-backends/nd4j-tests/src/test/java/org/nd4j/linalg/workspace/BasicWorkspaceTests.java:600-611 | after a refused request the workspace is as before, and a request that fits is carved at the unchanged offset |
| Arena.OverflowSpillIsStandalone | nd4j-backends/nd4j-tests/src/test/java/org/nd4j/linalg/workspace/BasicWorkspaceTests.java:41 | under EXTERNAL, a request a committed pool cannot hold is allocated standalone and leaves the offset alone |
| Arena.LeaveNeverCommitsWithoutFirstLoop | nd4j-backends/nd4j-tests/src/test/java/org/nd4j/linalg/workspace/BasicWorkspaceTests.java:450-459 | under NONE and OVER_TIME, ending a cycle never changes the pool size |
| Arena.FirstLoopCommitsCycleUsage | nd4j-backends/nd4j-tests/src/test/java/org/nd4j/linalg/workspace/BasicWorkspaceTests.java:426-437 | under FIRST_LOOP with no pool, the outermost leave commits the cycle's usage and resets the offset |
| Cycles.AllocateAll | nd4j-backends/nd4j-tests/src/test/java/org/nd4j/linalg/workspace/BasicWorkspaceTests.java:535-542 | a run of requests changes only the offset and the usage, and never moves the offset back |
| Cycles.LargestCycle | nd4j-backends/nd4j-tests/src/test/java/org/nd4j/linalg/workspace/BasicWorkspaceTests.java:450-462 | the largest usage bounds every cycle's usage and is reached by one of them |
| Cycles.BumpAccumulates | nd4j-backends/nd4j-tests/src/test/java/org/nd4j/linalg/workspace/BasicWorkspaceTests.java:97-109 | requests that fit are carved back to back: offset and usage grow by exactly the sum of the aligned sizes |
| Cycles.LearningPhaseSpills | nd4j-backends/nd4j-tests/src/test/java/org/nd4j/linalg/workspace/BasicWorkspaceTests.java:426-432 | with no pool and EXTERNAL, every request spills: the offset stays and the usage grows by the sum of the aligned sizes |
| Cycles.DisabledRequestsLeaveNoTrace | nd4j-backends/nd4j-tests/src/test/java/org/nd4j/linalg/workspace/BasicWorkspaceTests.java:348-356 | with use off, any requests leave the workspace unchanged |
| Cycles.ToggleRoundTrip | nd4j-backends/nd4j-tests/src/test/java/org/nd4j/linalg/workspace/BasicWorkspaceTests.java:367-386 | turning use off, making any requests and turning it back on restores the workspace, so the next request bumps from the pre-toggle offset |
| Cycles.FirstLoopFirstCycle | nd4j-backends/nd4j-tests/src/test/java/org/nd4j/linalg/workspace/BasicWorkspaceTests.java:426-437 | the first FIRST_LOOP cycle runs at offset 0 with size 0, and leaving it commits the committed form of its total usage |
| Cycles.OverTimeRecordsLargestCycle | nd4j-backends/nd4j-tests/src/test/java/org/nd4j/linalg/workspace/BasicWorkspaceTests.java:450-459 | any number of OVER_TIME cycles keep the size and the offset at 0 and record the largest cycle's usage |
| Cycles.OverTimeInitializeCommitsLargest | nd4j-backends/nd4j-tests/src/test/java/org/nd4j/linalg/workspace/BasicWorkspaceTests.java:450-462 | after OVER_TIME cycles, `initializeWorkspace` commits the committed form of the largest cycle's usage |
| Manager.CreateNewWorkspace | nd4j-backends/nd4j-tests/src/test/java/org/nd4j/linalg/workspace/BasicWorkspaceTests.java:271-275 | registers a new workspace under a fresh id without changing the current workspace or the guards |
| Manager.GetWorkspaceForCurrentThread | nd4j-backends/nd4j-tests/src/test/java/org/nd4j/linalg/workspace/BasicWorkspaceTests.java:616-622 | the named workspace exists afterwards; an existing one is returned untouched, a missing one is created from the configuration |
| Manager.GetWorkspaceIdempotent | nd4j-backends/nd4j-tests/src/test/java/org/nd4j/linalg/workspace/BasicWorkspaceTests.java:636-643 | asking again for the same name returns the same workspace and ignores the second configuration |
| Manager.EnterScope | nd4j-backends/nd4j-tests/src/test/java/org/nd4j/linalg/workspace/BasicWorkspaceTests.java:278 | the workspace becomes current, its scope is entered and its guard, remembering the previous current workspace, is pushed |
| Manager.GetAndActivateWorkspace | nd4j-backends/nd4j-tests/src/test/java/org/nd4j/linalg/workspace/BasicWorkspaceTests.java:119-123 | get-or-create then enter: the named workspace is current and its guard is on top |
| Manager.ScopeOutOfWorkspaces | nd4j-backends/nd4j-tests/src/test/java/org/nd4j/linalg/workspace/BasicWorkspaceTests.java:101-104 | no workspace is current and a guard remembering the previous one is pushed |
| Manager.Release | nd4j-backends/nd4j-tests/src/test/java/org/nd4j/linalg/workspace/BasicWorkspaceTests.java:434-437 | succeeds exactly when the guard is the innermost one (and, for a workspace guard, that workspace has an open scope); otherwise a scope-discipline violation; pops it, leaves the scope and restores the previous current workspace |
| Manager.SetCurrentWorkspace | nd4j-backends/nd4j-tests/src/test/java/org/nd4j/linalg/workspace/BasicWorkspaceTests.java:273 | replaces the current workspace and nothing else |
| Manager.Request | nd4j-backends/nd4j-tests/src/test/java/org/nd4j/linalg/workspace/BasicWorkspaceTests.java:93-109 | with no current workspace the buffer is detached; otherwise the current workspace serves it, the request is refused exactly when that workspace refuses it, the buffer is attached exactly when it was not standalone, and only that workspace changes |
| Manager.Create | nd4j-backends/nd4j-tests/src/test/java/org/nd4j/linalg/workspace/BasicWorkspaceTests.java:93-109 | a request of elements × 4 bytes: with no current workspace it succeeds, changes nothing and is unattached; otherwise it is refused exactly when the current workspace refuses, the manager changes only in that workspace, which becomes its `Allocate` result (the current workspace and the guards stay), and the buffer is attached to it in its current generation exactly when not placed standalone |
| Manager.IsAttached | nd4j-backends/nd4j-tests/src/test/java/org/nd4j/linalg/workspace/BasicWorkspaceTests.java:104 | definition: a buffer is attached when its tag names an owning workspace; its behaviour is stated by Request, Create, Detach and Leverage (asserted at :104, :139, :251, :256) |
| Manager.IsInScope | nd4j-backends/nd4j-tests/src/test/java/org/nd4j/linalg/workspace/BasicWorkspaceTests.java:191-203 | definition: detached buffers are always in scope; an attached one while its owner is inside a scope of the buffer's generation; its behaviour is stated by CreatedInScope, ReleaseEndsScope and NextCycleKeepsOldBuffersOut (asserted at :218-230, :239-242) |
| Manager.Detach | nd4j-backends/nd4j-tests/src/test/java/org/nd4j/linalg/workspace/BasicWorkspaceTests.java:196-204 | the copy has the same size, is not attached and is in scope in every state |
| Manager.CreateUninitializedDetached | nd4j-backends/nd4j-tests/src/test/java/org/nd4j/linalg/workspace/BasicWorkspaceTests.java:172-177 | the buffer holds the requested floats, is not attached and is in scope in every state |
| Manager.Leverage | nd4j-backends/nd4j-tests/src/test/java/org/nd4j/linalg/workspace/BasicWorkspaceTests.java:132-139 | with an enclosing workspace, the copy is served by it: refused exactly when it refuses, the enclosing workspace becomes its `Allocate` result and no other workspace, guard or current changes, and the copy is attached to it exactly when not placed standalone; without one the copy is detached |
| Manager.ScopeOutRoundTrip | nd4j-backends/nd4j-tests/src/test/java/org/nd4j/linalg/workspace/BasicWorkspaceTests.java:101-109 | releasing the guard of a region without workspaces restores the manager exactly |
| Manager.ActivationRoundTrip | nd4j-backends/nd4j-tests/src/test/java/org/nd4j/linalg/workspace/BasicWorkspaceTests.java:248-256 | releasing a guard right after taking it restores the current workspace and the guards; only that workspace moved, through one enter and leave |
| Manager.OutOfOrderReleaseRefused | nd4j-backends/nd4j-tests/src/test/java/org/nd4j/linalg/workspace/BasicWorkspaceTests.java:119-143 | releasing any guard other than the innermost one is a scope-discipline violation |
| Manager.CreatedInScope | nd4j-backends/nd4j-tests/src/test/java/org/nd4j/linalg/workspace/BasicWorkspaceTests.java:236-239 | an attached buffer made during an open scope is in scope |
| Manager.ReleaseEndsScope | nd4j-backends/nd4j-tests/src/test/java/org/nd4j/linalg/workspace/BasicWorkspaceTests.java:236-242 | once the outermost guard of its workspace is released, an attached buffer is out of scope |
| Manager.NextCycleKeepsOldBuffersOut | nd4j-backends/nd4j-tests/src/test/java/org/nd4j/linalg/workspace/BasicWorkspaceTests.java:223-230 | a buffer of any closed cycle (any generation up to the current one, including a learning cycle whose end committed the pool) is out of scope, and stays out when the workspace enters its next cycle |
| Manager.LeverageFromSelfParentedDetaches | nd4j-backends/nd4j-tests/src/test/java/org/nd4j/linalg/workspace/BasicWorkspaceTests.java:132-139 | a workspace installed as current and then entered has no enclosing workspace: leveraging from it yields a detached copy and changes nothing |
| Manager.LeverageMovesToOuter | nd4j-backends/nd4j-tests/src/test/java/org/nd4j/linalg/workspace/BasicWorkspaceTests.java:127-139 | leveraging out of a nested workspace grows only the outer offset by the aligned size, leaves the inner workspace untouched and attaches the copy to the outer one |
| Manager.LeveragedSurvivesInnerRelease | nd4j-backends/nd4j-tests/src/test/java/org/nd4j/linalg/workspace/BasicWorkspaceTests.java:132-143 | a leveraged copy stays in scope after the inner guard is released, while the outer scope is open |
| Scenarios.TestOutOfScope1 | nd4j-backends/nd4j-tests/src/test/java/org/nd4j/linalg/workspace/BasicWorkspaceTests.java:91-115 | offsets 24 then 48, and the buffer made outside all workspaces is not attached |
| Scenarios.TestLeverage1 | nd4j-backends/nd4j-tests/src/test/java/org/nd4j/linalg/workspace/BasicWorkspaceTests.java:117-144 | the inner offset is 24 before and after leverage, the outer goes 0 to 24, and the copy is attached |
| Scenarios.TestCreateDetached1 | nd4j-backends/nd4j-tests/src/test/java/org/nd4j/linalg/workspace/BasicWorkspaceTests.java:166-180 | the offset stays 24 after the detached target is made (asserted); that the target is not attached is a consequence of the model the suite does not assert |
| Scenarios.TestDetach1 | nd4j-backends/nd4j-tests/src/test/java/org/nd4j/linalg/workspace/BasicWorkspaceTests.java:183-209 | the original stays attached and in scope, the copy is unattached and in scope, the offset stays 24 |
| Scenarios.TestScope2 | nd4j-backends/nd4j-tests/src/test/java/org/nd4j/linalg/workspace/BasicWorkspaceTests.java:211-231 | first cycle: in scope, size 0; second cycle: in scope at offset 400; after it: out of scope |
| Scenarios.TestScope1 | nd4j-backends/nd4j-tests/src/test/java/org/nd4j/linalg/workspace/BasicWorkspaceTests.java:233-243 | in scope inside the cycle, out of scope after it |
| Scenarios.TestIsAttached1 | nd4j-backends/nd4j-tests/src/test/java/org/nd4j/linalg/workspace/BasicWorkspaceTests.java:245-257 | a learning-phase buffer is attached; after the scope one is not |
| Scenarios.TestOverallocation3 | nd4j-backends/nd4j-tests/src/test/java/org/nd4j/linalg/workspace/BasicWorkspaceTests.java:259-290 | size 0 before and after ten OVER_TIME cycles, 800 after `initializeWorkspace` |
| Scenarios.TestOverallocation2 | nd4j-backends/nd4j-tests/src/test/java/org/nd4j/linalg/workspace/BasicWorkspaceTests.java:292-316 | size 0, then 800 after one FIRST_LOOP cycle of 100 floats |
| Scenarios.TestOverallocation1 | nd4j-backends/nd4j-tests/src/test/java/org/nd4j/linalg/workspace/BasicWorkspaceTests.java:318-333 | size 2048 at construction |
| Scenarios.TestToggle1 | nd4j-backends/nd4j-tests/src/test/java/org/nd4j/linalg/workspace/BasicWorkspaceTests.java:335-387 | offset 0 and size 800 after the first cycle; 400 after toggling back on, then 800 |
| Scenarios.TestLoop4 | nd4j-backends/nd4j-tests/src/test/java/org/nd4j/linalg/workspace/BasicWorkspaceTests.java:389-414 | offset 0 and size 800 after the first cycle; 400 inside the second, 0 after it |
| Scenarios.TestLoops3 | nd4j-backends/nd4j-tests/src/test/java/org/nd4j/linalg/workspace/BasicWorkspaceTests.java:416-438 | offset and size 0 during the first cycle; offset 0 and size 440 after it |
| Scenarios.TestLoops2 | nd4j-backends/nd4j-tests/src/test/java/org/nd4j/linalg/workspace/BasicWorkspaceTests.java:440-471 | 100 OVER_TIME cycles at offset and size 0, then size 400, offset 0, and 40 for 10 floats |
| Scenarios.TestLoops1 | nd4j-backends/nd4j-tests/src/test/java/org/nd4j/linalg/workspace/BasicWorkspaceTests.java:473-523 | offset and size 0 in the cold cycle, 48 committed, then ten cycles at offset 40 ending at 0 |
| Scenarios.TestAllocation6 | nd4j-backends/nd4j-tests/src/test/java/org/nd4j/linalg/workspace/BasicWorkspaceTests.java:525-545 | offsets 4000 then 8000 |
| Scenarios.TestAllocation5 | nd4j-backends/nd4j-tests/src/test/java/org/nd4j/linalg/workspace/BasicWorkspaceTests.java:547-570 | offsets 24 then 48 |
| Scenarios.TestAllocation4 | nd4j-backends/nd4j-tests/src/test/java/org/nd4j/linalg/workspace/BasicWorkspaceTests.java:573-612 | offset 24, the oversized request refused with the offset still 24, then 48 |
| Scenarios.TestAllocationDefaultWorkspace | nd4j-backends/nd4j-tests/src/test/java/org/nd4j/linalg/workspace/BasicWorkspaceTests.java:614-633 | five floats in the workspace fetched under the default id sit at offset 24 (asserted); that they are attached to it is a consequence of the model the suite does not assert |

## Left out

- Mirroring (MirroringPolicy.FULL, `deviceOffset` and the device pool): no assertion observes it; the policy is carried in the configuration and ignored.
- Memory contents, raw addresses and the copies made by `leverage`, `detach` and `dup`: native calls; only sizes and ownership tags are modelled.
- Numeric array operations (`addi`, `assign`, `sumNumber`, `getFloat`, `rand`) and their results; only the bytes they request are modelled.
- testCold and testNoShape1: array arithmetic and shape/stride logic, not the workspace.
- The thread-local registry, concurrent first access and thread identity: the model is one thread's manager.
- Data-type size lookup: fixed at 4 bytes (FLOAT); the name behind `MemoryWorkspace.DEFAULT_ID` is not part of this model and is written as "DEFAULT".
- The learning-cycle count that could trigger an OVER_TIME commit by itself: the suite only shows explicit `initializeWorkspace` calls.
- The overallocation limit is a whole percentage rather than a float, and the extra share is rounded down before the 8-byte alignment.
- Manager.Leverage: with no enclosing workspace (none current before the scope was entered, or the same workspace) the copy is detached; the suite never leverages from an outermost workspace, so this case is a chosen reading rather than an observed one.
- Scenarios for the tests that install one workspace with `setCurrentWorkspace` and drive its scopes directly (testOverallocation2-3, testToggle1, testLoop4, testLoops1-3, testAllocation4-6) apply the requests to that workspace directly, which is what the current-workspace routing amounts to there.
- Arena.Allocate: a request refused under FAIL adds nothing to the cycle's usage, whereas the workspace's design records every request's high-water mark whatever the outcome. As a consequence, a FIRST_LOOP workspace with FAIL spill and no initial size refuses every request, learns 0 bytes and never obtains a pool; the suite has no such workspace.

## Findings

| source | as written | input that shows it | evidently intended | confidence | as-written member | corrected member |
|---|---|---|---|---|---|---|
| nd4j-backends/nd4j-tests/src/test/java/org/nd4j/linalg/workspace/BasicWorkspaceTests.java:96-97 | the expected pool offset of a request of b bytes is written `b + b % 8` | b = 10 (five 2-byte elements): the expression gives 12, which is not on the 8-byte boundary every offset is kept on; 8-byte rounding gives 16 | round b up to the next multiple of 8 | low: latent, since the suite forces 4-byte floats, for which both agree (Sizing.SuiteRoundingAgrees); not executed | Sizing.SuiteRoundingMisaligns | Sizing.Align |

=== FILE: arena.dfy ===
/**
  One workspace: a pool served by bumping an offset, its scope cycles, the learning
  policies that decide its size, and the use toggle.
 */
module Arena {
  import opened Outcomes
  import opened Sizing
  import opened Config

  /**
    `cycleBytes` is what the cycle in progress has asked for (aligned, in the pool or
    spilled, toggled-off requests excluded); `learnedMax` is the largest completed cycle;
    `generation` changes whenever the pool's bytes may be handed out again.
   */
  datatype Workspace = Workspace(
    config: WorkspaceConfiguration,
    currentSize: nat,
    hostOffset: nat,
    depth: nat,
    cycles: nat,
    cycleBytes: nat,
    learnedMax: nat,
    generation: nat,
    enabled: bool)

  /** The state every reachable workspace is in. */
  predicate Valid(ws: Workspace) {
    && ws.hostOffset <= ws.currentSize
    && ws.hostOffset <= ws.cycleBytes
    && ws.hostOffset % Alignment == 0
    && ws.cycleBytes % Alignment == 0
    && ws.learnedMax % Alignment == 0
  }

  /** Where a request was served from. */
  datatype Placement =
    /** carved from the pool at `offset`; the buffer is attached */
    | InPool(offset: nat)
    /** the pool is not committed yet: a separate block tied to this cycle; the buffer is attached */
    | CycleSpill
    /** an independent allocation outside the workspace; the buffer is not attached */
    | Standalone

  datatype Allocation = Allocation(ws: Workspace, placement: Placement)

  /** A workspace as constructed: a nonzero initial size commits the pool at once. */
  function New(config: WorkspaceConfiguration): (ws: Workspace)
    ensures Valid(ws)
    ensures ws.config == config
    ensures ws.hostOffset == 0 && ws.depth == 0 && ws.cycles == 0 && ws.enabled
    ensures ws.cycleBytes == 0 && ws.learnedMax == 0
    ensures config.initialSize == 0 ==> ws.currentSize == 0
    ensures config.initialSize > 0 ==> ws.currentSize == CommitSize(config, config.initialSize)
  {
    var size := if config.initialSize > 0 then CommitSize(config, config.initialSize) else 0;
    Workspace(config, size, 0, 0, 0, 0, 0, 0, true)
  }

  /** The pool is committed and `aligned` more bytes fit behind the offset. */
  predicate Fits(ws: Workspace, aligned: nat) {
    ws.currentSize > 0 && ws.hostOffset + aligned <= ws.currentSize
  }

  /** Only the bump offset and the cycle's usage differ between `a` and `b`. */
  predicate SameExceptUsage(a: Workspace, b: Workspace) {
    a == b.(hostOffset := a.hostOffset, cycleBytes := a.cycleBytes)
  }

  /** Serves a request of `bytes`. */
  function Allocate(ws: Workspace, bytes: nat): (r: Result<Allocation>)
    ensures r.Err? <==> ws.enabled && !Fits(ws, Align(bytes)) && ws.config.policySpill == Fail
    ensures r.Err? ==> r.error == CapacityExceeded
    ensures r.Ok? ==> SameExceptUsage(r.value.ws, ws)
    ensures r.Ok? ==> (r.value.placement.InPool? <==> ws.enabled && Fits(ws, Align(bytes)))
    ensures r.Ok? ==> (r.value.placement.CycleSpill? <==> ws.enabled && ws.currentSize == 0)
    ensures r.Ok? && r.value.placement.InPool? ==>
              r.value.placement.offset == ws.hostOffset
              && r.value.ws.hostOffset == ws.hostOffset + Align(bytes) <= ws.currentSize
    ensures r.Ok? && !r.value.placement.InPool? ==> r.value.ws.hostOffset == ws.hostOffset
    ensures r.Ok? ==> r.value.ws.cycleBytes == ws.cycleBytes + (if ws.enabled then Align(bytes) else 0)
    ensures r.Ok? && Valid(ws) ==> Valid(r.value.ws)
  {
    var aligned := Align(bytes);
    if !ws.enabled then
      Ok(Allocation(ws, Standalone))
    else if Fits(ws, aligned) then
      Ok(Allocation(ws.(hostOffset := ws.hostOffset + aligned, cycleBytes := ws.cycleBytes + aligned),
                    InPool(ws.hostOffset)))
    else if ws.config.policySpill == Fail then
      Err(CapacityExceeded)
    else
      var spilled := ws.(cycleBytes := ws.cycleBytes + aligned);
      Ok(Allocation(spilled, if ws.currentSize == 0 then CycleSpill else Standalone))
  }

  /**
    `notifyScopeEntered`: the outermost entry starts a new cycle at offset zero, under a
    fresh scope guard whose use toggle starts switched on.
   */
  function Enter(ws: Workspace): (r: Workspace)
    ensures r.depth == ws.depth + 1
    ensures ws.depth == 0 ==>
              r.hostOffset == 0 && r.cycleBytes == 0 && r.generation == ws.generation + 1 && r.enabled
              && r == ws.(depth := 1, hostOffset := 0, cycleBytes := 0, generation := r.generation, enabled := true)
    ensures ws.depth > 0 ==> r == ws.(depth := ws.depth + 1)
    ensures Valid(ws) ==> Valid(r)
  {
    if ws.depth == 0 then
      ws.(depth := 1, hostOffset := 0, cycleBytes := 0, generation := ws.generation + 1, enabled := true)
    else
      ws.(depth := ws.depth + 1)
  }

  /**
    `initializeWorkspace`: commits the largest cycle seen so far (aligned, overallocated,
    capped) as the pool size; the pool is reallocated, so the offset restarts and the
    generation moves on.
   */
  function Initialize(ws: Workspace): (r: Workspace)
    ensures r.currentSize == CommitSize(ws.config, ws.learnedMax)
    ensures r.hostOffset == 0 && r.generation == ws.generation + 1
    ensures r == ws.(currentSize := r.currentSize, hostOffset := 0, generation := r.generation)
    ensures Valid(ws) ==> Valid(r)
  {
    ws.(currentSize := CommitSize(ws.config, ws.learnedMax), hostOffset := 0, generation := ws.generation + 1)
  }

  /** Whether ending a cycle of `ws` commits the pool by itself. */
  predicate CommitsOnCycleEnd(ws: Workspace) {
    ws.config.policyLearning == FirstLoop && ws.currentSize == 0
  }

  /**
    `notifyScopeLeft`: only the outermost leave ends the cycle: it records the cycle's
    usage, resets the offset, drops the scope guard's use toggle (pool use is on again) and,
    under FIRST_LOOP with no pool yet, commits the pool.
   */
  function Leave(ws: Workspace): (r: Result<Workspace>)
    ensures r.Err? <==> ws.depth == 0
    ensures r.Err? ==> r.error == ScopeDisciplineViolation
    ensures r.Ok? ==> r.value.depth == ws.depth - 1 && r.value.config == ws.config
    ensures r.Ok? && ws.depth > 1 ==> r.value == ws.(depth := ws.depth - 1)
    ensures r.Ok? && ws.depth == 1 ==>
              && r.value.hostOffset == 0
              && r.value.cycleBytes == 0
              && r.value.cycles == ws.cycles + 1
              && r.value.learnedMax == Max(ws.learnedMax, ws.cycleBytes)
              && r.value.enabled
    ensures r.Ok? && ws.depth == 1 ==>
              && r.value.generation == (if CommitsOnCycleEnd(ws) then ws.generation + 1 else ws.generation)
              && (CommitsOnCycleEnd(ws) ==> r.value.currentSize == CommitSize(ws.config, r.value.learnedMax))
              && r.value == ws.(depth := 0, cycles := r.value.cycles, learnedMax := r.value.learnedMax,
                                hostOffset := 0, cycleBytes := 0, enabled := true,
                                currentSize := r.value.currentSize, generation := r.value.generation)
    ensures r.Ok? && !CommitsOnCycleEnd(ws) ==> r.value.currentSize == ws.currentSize
    ensures r.Ok? && Valid(ws) ==> Valid(r.value)
  {
    if ws.depth == 0 then
      Err(ScopeDisciplineViolation)
    else if ws.depth > 1 then
      Ok(ws.(depth := ws.depth - 1))
    else
      var ended := ws.(depth := 0, cycles := ws.cycles + 1, learnedMax := Max(ws.learnedMax, ws.cycleBytes),
                       hostOffset := 0, cycleBytes := 0, enabled := true);
      Ok(if CommitsOnCycleEnd(ws) then Initialize(ended) else ended)
  }

  /** `toggleWorkspaceUse`: switches pool use off or back on for the cycle. */
  function ToggleWorkspaceUse(ws: Workspace, isEnabled: bool): (r: Workspace)
    ensures r.enabled == isEnabled
    ensures r.(enabled := ws.enabled) == ws
  {
    ws.(enabled := isEnabled)
  }

  /** A request refused under FAIL leaves nothing behind; a request that fits then bumps as usual. */
  lemma FailThenFitBumps(ws: Workspace, big: nat, small: nat)
    requires Allocate(ws, big).Err?
    requires Fits(ws, Align(small))
    ensures Allocate(ws, small).Ok?
    ensures Allocate(ws, small).value.ws.hostOffset == ws.hostOffset + Align(small)
    ensures Allocate(ws, small).value.placement == InPool(ws.hostOffset)
  {
  }

  /** When the pool is committed and too small, EXTERNAL spills without touching the offset. */
  lemma OverflowSpillIsStandalone(ws: Workspace, bytes: nat)
    requires ws.enabled && ws.currentSize > 0 && !Fits(ws, Align(bytes))
    requires ws.config.policySpill == External
    ensures Allocate(ws, bytes).Ok?
    ensures Allocate(ws, bytes).value.placement == Standalone
    ensures Allocate(ws, bytes).value.ws.hostOffset == ws.hostOffset
  {
  }

  /** Under NONE and OVER_TIME the end of a cycle never changes the pool size. */
  lemma LeaveNeverCommitsWithoutFirstLoop(ws: Workspace)
    requires ws.config.policyLearning != FirstLoop
    requires ws.depth > 0
    ensures Leave(ws).Ok? && Leave(ws).value.currentSize == ws.currentSize
  {
  }

  /** Under FIRST_LOOP the first cycle that ends with no pool commits exactly what it used. */
  lemma FirstLoopCommitsCycleUsage(ws: Workspace)
    requires ws.config.policyLearning == FirstLoop && ws.currentSize == 0
    requires ws.depth == 1 && ws.learnedMax <= ws.cycleBytes
    ensures Leave(ws).Ok?
    ensures Leave(ws).value.currentSize == CommitSize(ws.config, ws.cycleBytes)
    ensures Leave(ws).value.hostOffset == 0
  {
  }
}

=== FILE: config.dfy ===
/** The immutable policy bundle a workspace is built from, and the size it commits to. */
module Config {
  import opened Sizing

  datatype AllocationPolicy =
    /** the committed size is the learned (or initial) size, aligned */
    | Strict
    /** the committed size is inflated by the overallocation limit */
    | Overallocate

  datatype LearningPolicy =
    /** the pool keeps its construction-time size */
    | NoLearning
    /** the first cycle that finds the pool uncommitted commits what it used */
    | FirstLoop
    /** cycles only record their usage; `initializeWorkspace` commits the largest */
    | OverTime

  datatype MirroringPolicy = FullMirroring | NoMirroring

  datatype SpillPolicy =
    /** a request the pool cannot serve is allocated outside it */
    | External
    /** a request the pool cannot serve is refused */
    | Fail

  /**
    `overallocationPercent` is the overallocation limit in whole per cent
    (a limit of 0.1 is 10, a limit of 1.0 is 100); `maxSize == 0` means unbounded.
   */
  datatype WorkspaceConfiguration = WorkspaceConfiguration(
    initialSize: nat,
    maxSize: nat,
    overallocationPercent: nat,
    policyAllocation: AllocationPolicy,
    policyLearning: LearningPolicy,
    policyMirroring: MirroringPolicy,
    policySpill: SpillPolicy)

  /** The pool size a workspace commits to after learning (or being given) `learned` bytes. */
  function CommitSize(c: WorkspaceConfiguration, learned: nat): (r: nat)
    ensures c.maxSize > 0 ==> r <= c.maxSize
    ensures r == c.maxSize || (r % Alignment == 0 && learned <= r)
    ensures c.policyAllocation == Strict && (c.maxSize == 0 || Align(learned) <= c.maxSize)
            ==> r == Align(learned)
    ensures c.policyAllocation == Overallocate ==>
              var a := Align(learned);
              r < a + a * c.overallocationPercent / 100 + Alignment
    ensures c.policyAllocation == Overallocate ==>
              var a := Align(learned);
              (c.maxSize == 0 || a + a * c.overallocationPercent / 100 + Alignment <= c.maxSize) ==>
                a + a * c.overallocationPercent / 100 <= r
  {
    var base := Align(learned);
    var grown := if c.policyAllocation == Overallocate then WithOverallocation(base, c.overallocationPercent) else base;
    Clamp(grown, c.maxSize)
  }

  /** With OVERALLOCATE and a limit of 1.0, the committed size is twice the aligned learned size. */
  lemma CommitDoublesUnderFullOverallocation(c: WorkspaceConfiguration, learned: nat)
    requires c.policyAllocation == Overallocate && c.overallocationPercent == 100
    requires c.maxSize == 0 || 2 * Align(learned) <= c.maxSize
    ensures CommitSize(c, learned) == 2 * Align(learned)
  {
    OverallocationDoubles(Align(learned));
  }
}

=== FILE: cycles.dfy ===
/**
  Sequences of requests and of whole cycles run against one workspace: how the offset
  accumulates, what the learning policies record and commit, and what the toggle hides.
 */
module Cycles {
  import opened Outcomes
  import opened Sizing
  import opened Config
  import opened Arena

  /** The aligned bytes a list of requests occupies. */
  function SumAligned(requests: seq<nat>): (r: nat)
    ensures r % Alignment == 0
  {
    if |requests| == 0 then 0
    else
      var rest := SumAligned(requests[1..]);
      AlignedSum(Align(requests[0]), rest);
      Align(requests[0]) + rest
  }

  /** Issues `requests` in order, stopping at the first refusal. */
  function AllocateAll(ws: Workspace, requests: seq<nat>): (r: Result<Workspace>)
    ensures r.Ok? ==> SameExceptUsage(r.value, ws)
    ensures r.Ok? && Valid(ws) ==> Valid(r.value)
    ensures r.Ok? ==> ws.hostOffset <= r.value.hostOffset
    decreases |requests|
  {
    if |requests| == 0 then Ok(ws)
    else
      match Allocate(ws, requests[0])
      case Err(e) => Err(e)
      case Ok(a) => AllocateAll(a.ws, requests[1..])
  }

  /** One complete cycle: enter, issue the requests, leave. */
  function RunCycle(ws: Workspace, requests: seq<nat>): Result<Workspace> {
    match AllocateAll(Enter(ws), requests)
    case Err(e) => Err(e)
    case Ok(inside) => Leave(inside)
  }

  /** Consecutive cycles, one list of requests per cycle. */
  function RunCycles(ws: Workspace, cycles: seq<seq<nat>>): Result<Workspace>
    decreases |cycles|
  {
    if |cycles| == 0 then Ok(ws)
    else
      match RunCycle(ws, cycles[0])
      case Err(e) => Err(e)
      case Ok(next) => RunCycles(next, cycles[1..])
  }

  /** The largest per-cycle usage among `cycles`. */
  function LargestCycle(cycles: seq<seq<nat>>): (r: nat)
    ensures forall i :: 0 <= i < |cycles| ==> SumAligned(cycles[i]) <= r
    ensures |cycles| > 0 ==> exists i :: 0 <= i < |cycles| && SumAligned(cycles[i]) == r
    ensures r % Alignment == 0
  {
    if |cycles| == 0 then 0
    else
      var rest := LargestCycle(cycles[1..]);
      assert forall i :: 1 <= i < |cycles| ==> cycles[i] == cycles[1..][i - 1];
      Max(SumAligned(cycles[0]), rest)
  }

  /**
    Requests that all fit in a committed pool are carved one after another: the offset
    and the cycle's usage grow by exactly the sum of the aligned sizes.
   */
  lemma {:induction false} BumpAccumulates(ws: Workspace, requests: seq<nat>)
    requires ws.enabled && ws.currentSize > 0
    requires ws.hostOffset + SumAligned(requests) <= ws.currentSize
    ensures AllocateAll(ws, requests)
            == Ok(ws.(hostOffset := ws.hostOffset + SumAligned(requests),
                      cycleBytes := ws.cycleBytes + SumAligned(requests)))
    decreases |requests|
  {
    if |requests| > 0 {
      var a := Allocate(ws, requests[0]);
      assert a.Ok? && a.value.placement.InPool?;
      BumpAccumulates(a.value.ws, requests[1..]);
    }
  }

  /**
    While the pool is not committed and the spill policy is EXTERNAL, every request
    spills: the offset stays where it is and only the cycle's usage grows.
   */
  lemma {:induction false} LearningPhaseSpills(ws: Workspace, requests: seq<nat>)
    requires ws.enabled && ws.currentSize == 0 && ws.config.policySpill == External
    ensures AllocateAll(ws, requests) == Ok(ws.(cycleBytes := ws.cycleBytes + SumAligned(requests)))
    decreases |requests|
  {
    if |requests| > 0 {
      var a := Allocate(ws, requests[0]);
      assert a.Ok? && a.value.placement.CycleSpill?;
      LearningPhaseSpills(a.value.ws, requests[1..]);
    }
  }

  /** With pool use switched off, any requests leave the workspace exactly as it was. */
  lemma {:induction false} DisabledRequestsLeaveNoTrace(ws: Workspace, requests: seq<nat>)
    requires !ws.enabled
    ensures AllocateAll(ws, requests) == Ok(ws)
    decreases |requests|
  {
    if |requests| > 0 {
      DisabledRequestsLeaveNoTrace(ws, requests[1..]);
    }
  }

  /**
    Switching pool use off, issuing any requests and switching it back on restores the
    workspace: the next request bumps from the offset reached before the switch, and the
    hidden requests do not count toward the learned size.
   */
  lemma ToggleRoundTrip(ws: Workspace, hidden: seq<nat>)
    requires ws.enabled
    ensures AllocateAll(ToggleWorkspaceUse(ws, false), hidden).Ok?
    ensures ToggleWorkspaceUse(AllocateAll(ToggleWorkspaceUse(ws, false), hidden).value, true) == ws
  {
    DisabledRequestsLeaveNoTrace(ToggleWorkspaceUse(ws, false), hidden);
  }

  /**
    FIRST_LOOP with no pool: the first cycle spills everything with the offset at zero,
    and leaving it commits the cycle's total usage.
   */
  lemma FirstLoopFirstCycle(ws: Workspace, requests: seq<nat>)
    requires ws.config.policyLearning == FirstLoop && ws.config.policySpill == External
    requires ws.currentSize == 0 && ws.depth == 0 && ws.enabled && ws.learnedMax == 0
    ensures AllocateAll(Enter(ws), requests).Ok?
    ensures AllocateAll(Enter(ws), requests).value.hostOffset == 0
    ensures AllocateAll(Enter(ws), requests).value.currentSize == 0
    ensures RunCycle(ws, requests).Ok?
    ensures RunCycle(ws, requests).value.currentSize == CommitSize(ws.config, SumAligned(requests))
    ensures RunCycle(ws, requests).value.hostOffset == 0
  {
    LearningPhaseSpills(Enter(ws), requests);
  }

  /**
    OVER_TIME with no pool: any number of cycles leave the pool uncommitted and the offset
    at zero, and record the largest cycle's usage.
   */
  lemma {:induction false} OverTimeRecordsLargestCycle(ws: Workspace, cycles: seq<seq<nat>>)
    requires ws.config.policyLearning == OverTime && ws.config.policySpill == External
    requires ws.currentSize == 0 && ws.depth == 0 && ws.enabled && ws.hostOffset == 0
    ensures RunCycles(ws, cycles).Ok?
    ensures RunCycles(ws, cycles).value.currentSize == 0
    ensures RunCycles(ws, cycles).value.hostOffset == 0
    ensures RunCycles(ws, cycles).value.depth == 0
    ensures RunCycles(ws, cycles).value.config == ws.config
    ensures RunCycles(ws, cycles).value.enabled
    ensures RunCycles(ws, cycles).value.cycles == ws.cycles + |cycles|
    ensures RunCycles(ws, cycles).value.learnedMax == Max(ws.learnedMax, LargestCycle(cycles))
    decreases |cycles|
  {
    if |cycles| > 0 {
      LearningPhaseSpills(Enter(ws), cycles[0]);
      var next := RunCycle(ws, cycles[0]);
      assert next.Ok?;
      assert next.value.learnedMax == Max(ws.learnedMax, SumAligned(cycles[0]));
      OverTimeRecordsLargestCycle(next.value, cycles[1..]);
    }
  }

  /** After OVER_TIME cycles, `initializeWorkspace` commits the largest cycle's usage. */
  lemma OverTimeInitializeCommitsLargest(ws: Workspace, cycles: seq<seq<nat>>)
    requires ws.config.policyLearning == OverTime && ws.config.policySpill == External
    requires ws.currentSize == 0 && ws.depth == 0 && ws.enabled && ws.hostOffset == 0
    requires ws.learnedMax == 0
    ensures RunCycles(ws, cycles).Ok?
    ensures Initialize(RunCycles(ws, cycles).value).currentSize == CommitSize(ws.config, LargestCycle(cycles))
  {
    OverTimeRecordsLargestCycle(ws, cycles);
    var learned := RunCycles(ws, cycles).value;
    assert learned.learnedMax == LargestCycle(cycles);
    assert learned.config == ws.config;
  }
}

=== FILE: manager.dfy ===
/**
  The per-thread workspace manager (registry of workspaces, the current workspace and
  the stack of open scope guards) and the buffer tags it hands out: attached/in-scope,
  and the ownership transfers leverage, detach and create-detached.
 */
module Manager {
  import opened Outcomes
  import opened Sizing
  import opened Config
  import opened Arena

  /** Workspaces are registered under a name, or under a serial number when created anonymously. */
  datatype WsId = Named(name: string) | Anonymous(serial: nat)

  /** A scope guard on the thread's stack; it remembers which workspace was current before it. */
  datatype Frame =
    /** a workspace whose scope was entered */
    | Activated(ws: WsId, previous: Option<WsId>)
    /** a region with no current workspace */
    | OutOfWorkspaces(previous: Option<WsId>)

  datatype WorkspaceManager = WorkspaceManager(
    spaces: map<WsId, Workspace>,
    serial: nat,
    current: Option<WsId>,
    frames: seq<Frame>)

  /** Who owns a buffer's bytes: nobody, or a workspace during one of its generations. */
  datatype Tag = Detached | Attached(owner: WsId, generation: nat)

  datatype Buffer = Buffer(bytes: nat, tag: Tag)

  datatype Registered = Registered(manager: WorkspaceManager, id: WsId)

  datatype Guarded = Guarded(manager: WorkspaceManager, guard: Frame)

  datatype Created = Created(manager: WorkspaceManager, buffer: Buffer)

  predicate Known(m: WorkspaceManager, id: Option<WsId>) {
    id.Some? ==> id.value in m.spaces
  }

  predicate FrameKnown(m: WorkspaceManager, f: Frame) {
    (f.Activated? ==> f.ws in m.spaces) && Known(m, f.previous)
  }

  /** Every workspace the manager points at is registered, and serials are never reused. */
  predicate WellFormed(m: WorkspaceManager) {
    && Known(m, m.current)
    && (forall i :: 0 <= i < |m.frames| ==> FrameKnown(m, m.frames[i]))
    && (forall id :: id in m.spaces && id.Anonymous? ==> id.serial < m.serial)
    && (forall id :: id in m.spaces ==> Arena.Valid(m.spaces[id]))
  }

  /** A thread's manager before anything happened on it. */
  function Empty(): (m: WorkspaceManager)
    ensures WellFormed(m) && m.current.None? && m.frames == [] && m.spaces == map[]
  {
    WorkspaceManager(map[], 0, None, [])
  }

  /** `createNewWorkspace`: registers a fresh workspace without activating it. */
  function CreateNewWorkspace(m: WorkspaceManager, config: WorkspaceConfiguration): (r: Registered)
    requires WellFormed(m)
    ensures r.id !in m.spaces
    ensures r.manager.spaces == m.spaces[r.id := New(config)]
    ensures r.manager.current == m.current && r.manager.frames == m.frames
    ensures WellFormed(r.manager)
  {
    var id := Anonymous(m.serial);
    Registered(m.(spaces := m.spaces[id := New(config)], serial := m.serial + 1), id)
  }

  /** `getWorkspaceForCurrentThread`: the workspace registered under `name`, created on first use. */
  function GetWorkspaceForCurrentThread(m: WorkspaceManager, config: WorkspaceConfiguration, name: string)
    : (r: WorkspaceManager)
    requires WellFormed(m)
    ensures Named(name) in r.spaces
    ensures Named(name) in m.spaces ==> r == m
    ensures Named(name) !in m.spaces ==> r == m.(spaces := m.spaces[Named(name) := New(config)])
    ensures WellFormed(r)
  {
    if Named(name) in m.spaces then m else m.(spaces := m.spaces[Named(name) := New(config)])
  }

  /**
    `notifyScopeEntered` through the manager: the workspace becomes current and its guard,
    remembering the previous current workspace, goes on top of the stack.
   */
  function EnterScope(m: WorkspaceManager, id: WsId): (r: Guarded)
    requires WellFormed(m) && id in m.spaces
    ensures r.guard == Activated(id, m.current)
    ensures r.manager.current == Some(id)
    ensures r.manager.frames == m.frames + [r.guard]
    ensures r.manager.spaces == m.spaces[id := Enter(m.spaces[id])]
    ensures WellFormed(r.manager)
  {
    var guard := Activated(id, m.current);
    Guarded(m.(spaces := m.spaces[id := Enter(m.spaces[id])], current := Some(id), frames := m.frames + [guard]),
            guard)
  }

  /** `getAndActivateWorkspace`: get-or-create the named workspace, then enter its scope. */
  function GetAndActivateWorkspace(m: WorkspaceManager, config: WorkspaceConfiguration, name: string)
    : (r: Guarded)
    requires WellFormed(m)
    ensures r.guard == Activated(Named(name), m.current)
    ensures r.manager.current == Some(Named(name))
    ensures r.manager.frames == m.frames + [r.guard]
    ensures Named(name) in m.spaces ==> r.manager.spaces == m.spaces[Named(name) := Enter(m.spaces[Named(name)])]
    ensures Named(name) !in m.spaces ==> r.manager.spaces == m.spaces[Named(name) := Enter(New(config))]
    ensures WellFormed(r.manager)
  {
    EnterScope(GetWorkspaceForCurrentThread(m, config, name), Named(name))
  }

  /** `scopeOutOfWorkspaces`: no workspace is current until the guard is released. */
  function ScopeOutOfWorkspaces(m: WorkspaceManager): (r: Guarded)
    requires WellFormed(m)
    ensures r.guard == OutOfWorkspaces(m.current)
    ensures r.manager == m.(current := None, frames := m.frames + [r.guard])
    ensures WellFormed(r.manager)
  {
    var guard := OutOfWorkspaces(m.current);
    Guarded(m.(current := None, frames := m.frames + [guard]), guard)
  }

  /** The guard may be released: it is the innermost one and, for a workspace, its scope is open. */
  predicate Releasable(m: WorkspaceManager, guard: Frame)
    requires WellFormed(m)
  {
    && |m.frames| > 0
    && m.frames[|m.frames| - 1] == guard
    && (guard.Activated? ==> m.spaces[guard.ws].depth > 0)
  }

  /**
    Releasing a guard (closing the try-with-resources block, or `notifyScopeLeft`): pops it,
    leaves the workspace's scope and makes the previous workspace current again.
   */
  function Release(m: WorkspaceManager, guard: Frame): (r: Result<WorkspaceManager>)
    requires WellFormed(m)
    ensures r.Ok? <==> Releasable(m, guard)
    ensures r.Err? ==> r.error == ScopeDisciplineViolation
    ensures r.Ok? ==> r.value.frames == m.frames[..|m.frames| - 1] && r.value.current == guard.previous
    ensures r.Ok? && guard.OutOfWorkspaces? ==> r.value.spaces == m.spaces
    ensures r.Ok? && guard.Activated? ==> r.value.spaces == m.spaces[guard.ws := Leave(m.spaces[guard.ws]).value]
    ensures r.Ok? ==> WellFormed(r.value)
  {
    if |m.frames| == 0 || m.frames[|m.frames| - 1] != guard then
      Err(ScopeDisciplineViolation)
    else
      var popped := m.frames[..|m.frames| - 1];
      assert forall i :: 0 <= i < |popped| ==> popped[i] == m.frames[i];
      match guard
      case OutOfWorkspaces(previous) =>
        Ok(m.(current := previous, frames := popped))
      case Activated(id, previous) =>
        match Leave(m.spaces[id])
        case Err(e) => Err(e)
        case Ok(w) => Ok(m.(spaces := m.spaces[id := w], current := previous, frames := popped))
  }

  /** `setCurrentWorkspace`: overrides the current workspace without touching the guard stack. */
  function SetCurrentWorkspace(m: WorkspaceManager, id: Option<WsId>): (r: WorkspaceManager)
    requires WellFormed(m) && Known(m, id)
    ensures r.current == id && r.spaces == m.spaces && r.frames == m.frames
    ensures WellFormed(r)
  {
    m.(current := id)
  }

  function TagFor(id: WsId, a: Allocation): Tag {
    if a.placement.Standalone? then Detached else Attached(id, a.ws.generation)
  }

  predicate IsAttached(b: Buffer) {
    b.tag.Attached?
  }

  /** A buffer is in scope while detached, or while its workspace is still in the cycle that produced it. */
  predicate IsInScope(m: WorkspaceManager, b: Buffer) {
    match b.tag
    case Detached => true
    case Attached(id, g) => id in m.spaces && m.spaces[id].depth > 0 && m.spaces[id].generation == g
  }

  /** Serves `bytes` for a new buffer from the current workspace, or independently when there is none. */
  function Request(m: WorkspaceManager, bytes: nat): (r: Result<Created>)
    requires WellFormed(m)
    ensures m.current.None? ==> r == Ok(Created(m, Buffer(bytes, Detached)))
    ensures m.current.Some? ==> (r.Err? <==> Allocate(m.spaces[m.current.value], bytes).Err?)
    ensures r.Ok? ==> r.value.buffer.bytes == bytes
    ensures r.Ok? && m.current.Some? ==>
              && var a := Allocate(m.spaces[m.current.value], bytes).value;
              && r.value.manager == m.(spaces := m.spaces[m.current.value := a.ws])
              && (IsAttached(r.value.buffer) <==> !a.placement.Standalone?)
              && (IsAttached(r.value.buffer) ==> r.value.buffer.tag.owner == m.current.value)
    ensures r.Ok? ==> WellFormed(r.value.manager)
  {
    match m.current
    case None => Ok(Created(m, Buffer(bytes, Detached)))
    case Some(id) =>
      match Allocate(m.spaces[id], bytes)
      case Err(e) => Err(e)
      case Ok(a) => Ok(Created(m.(spaces := m.spaces[id := a.ws]), Buffer(bytes, TagFor(id, a))))
  }

  /** `Nd4j.create` of `elements` floats. */
  function Create(m: WorkspaceManager, elements: nat): (r: Result<Created>)
    requires WellFormed(m)
    ensures r.Ok? ==> r.value.buffer.bytes == elements * ElementSize
    ensures m.current.None? ==> r.Ok? && r.value.manager == m && !IsAttached(r.value.buffer)
    ensures m.current.Some? ==> (r.Err? <==> Allocate(m.spaces[m.current.value], elements * ElementSize).Err?)
    ensures r.Ok? && m.current.Some? ==>
              && var a := Allocate(m.spaces[m.current.value], elements * ElementSize).value;
              && r.value.manager == m.(spaces := m.spaces[m.current.value := a.ws])
              && (IsAttached(r.value.buffer) <==> !a.placement.Standalone?)
              && (IsAttached(r.value.buffer) ==> r.value.buffer.tag == Attached(m.current.value, a.ws.generation))
    ensures r.Ok? ==> WellFormed(r.value.manager)
  {
    Request(m, BytesOf(elements))
  }

  /** `detach`: an independent copy, never attached, in scope whatever happens to any workspace. */
  function Detach(b: Buffer): (r: Buffer)
    ensures r.bytes == b.bytes && !IsAttached(r)
    ensures forall m :: IsInScope(m, r)
  {
    Buffer(b.bytes, Detached)
  }

  /** `createUninitializedDetached`: an independent buffer of `elements` floats. */
  function CreateUninitializedDetached(elements: nat): (r: Buffer)
    ensures r.bytes == BytesOf(elements) && !IsAttached(r)
    ensures forall m :: IsInScope(m, r)
  {
    Buffer(BytesOf(elements), Detached)
  }

  /**
    The workspace that was current when the current workspace's scope was entered, if that
    was another workspace: a workspace installed with `setCurrentWorkspace` and then entered
    (or activated inside itself) has no enclosing workspace.
   */
  function Enclosing(m: WorkspaceManager): (r: Option<WsId>)
    requires WellFormed(m)
    ensures r.Some? ==> r.value in m.spaces && |m.frames| > 0
    ensures r.Some? ==> m.current.Some? && m.frames[|m.frames| - 1] == Activated(m.current.value, r)
    ensures r.Some? ==> r != m.current
  {
    if && |m.frames| > 0 && m.frames[|m.frames| - 1].Activated?
       && m.current == Some(m.frames[|m.frames| - 1].ws)
       && m.frames[|m.frames| - 1].previous != m.current
    then m.frames[|m.frames| - 1].previous
    else None
  }

  /**
    `leverage`: copies the buffer into the enclosing workspace; with no enclosing
    workspace the copy is detached instead.
   */
  function Leverage(m: WorkspaceManager, b: Buffer): (r: Result<Created>)
    requires WellFormed(m)
    ensures Enclosing(m).None? ==> r == Ok(Created(m, Detach(b)))
    ensures Enclosing(m).Some? ==> (r.Err? <==> Allocate(m.spaces[Enclosing(m).value], b.bytes).Err?)
    ensures r.Ok? ==> r.value.buffer.bytes == b.bytes
    ensures r.Ok? ==> r.value.manager.current == m.current && r.value.manager.frames == m.frames
    ensures r.Ok? ==> r.value.manager.spaces.Keys == m.spaces.Keys
    ensures r.Ok? ==> forall id :: id in m.spaces && Some(id) != Enclosing(m) ==>
                                   r.value.manager.spaces[id] == m.spaces[id]
    ensures r.Ok? && Enclosing(m).Some? ==>
              && var a := Allocate(m.spaces[Enclosing(m).value], b.bytes).value;
              && r.value.manager.spaces == m.spaces[Enclosing(m).value := a.ws]
              && (IsAttached(r.value.buffer) <==> !a.placement.Standalone?)
              && (IsAttached(r.value.buffer) ==> r.value.buffer.tag.owner == Enclosing(m).value)
    ensures r.Ok? ==> WellFormed(r.value.manager)
  {
    match Enclosing(m)
    case None => Ok(Created(m, Detach(b)))
    case Some(outer) =>
      match Allocate(m.spaces[outer], b.bytes)
      case Err(e) => Err(e)
      case Ok(a) => Ok(Created(m.(spaces := m.spaces[outer := a.ws]), Buffer(b.bytes, TagFor(outer, a))))
  }

  /** Asking twice for the same name yields the same workspace; the second configuration is ignored. */
  lemma GetWorkspaceIdempotent(m: WorkspaceManager, c1: WorkspaceConfiguration, c2: WorkspaceConfiguration,
                               name: string)
    requires WellFormed(m)
    ensures GetWorkspaceForCurrentThread(GetWorkspaceForCurrentThread(m, c1, name), c2, name)
            == GetWorkspaceForCurrentThread(m, c1, name)
  {
  }

  /** Leaving a region without workspaces restores the manager exactly. */
  lemma ScopeOutRoundTrip(m: WorkspaceManager)
    requires WellFormed(m)
    ensures Release(ScopeOutOfWorkspaces(m).manager, ScopeOutOfWorkspaces(m).guard) == Ok(m)
  {
    var g := ScopeOutOfWorkspaces(m);
    assert g.manager.frames[..|g.manager.frames| - 1] == m.frames;
  }

  /**
    Releasing a workspace's guard right after taking it restores the current workspace and
    the guard stack; only that workspace's own state moved (a completed cycle).
   */
  lemma ActivationRoundTrip(m: WorkspaceManager, id: WsId)
    requires WellFormed(m) && id in m.spaces
    ensures Release(EnterScope(m, id).manager, EnterScope(m, id).guard).Ok?
    ensures Release(EnterScope(m, id).manager, EnterScope(m, id).guard).value
            == m.(spaces := m.spaces[id := Leave(Enter(m.spaces[id])).value])
  {
    var g := EnterScope(m, id);
    assert g.manager.frames[..|g.manager.frames| - 1] == m.frames;
  }

  /** Only the innermost guard can be released; any other is a scope-discipline violation. */
  lemma OutOfOrderReleaseRefused(m: WorkspaceManager, inner: Frame, outer: Frame)
    requires WellFormed(m) && |m.frames| > 0 && m.frames[|m.frames| - 1] == inner
    requires outer != inner
    ensures Release(m, outer) == Err(ScopeDisciplineViolation)
  {
  }

  /** A buffer carved from the current workspace during an open cycle is attached and in scope. */
  lemma CreatedInScope(m: WorkspaceManager, bytes: nat)
    requires WellFormed(m) && m.current.Some? && m.spaces[m.current.value].depth > 0
    requires Request(m, bytes).Ok? && IsAttached(Request(m, bytes).value.buffer)
    ensures IsInScope(Request(m, bytes).value.manager, Request(m, bytes).value.buffer)
  {
  }

  /** Once the outermost guard of its workspace is released, an attached buffer is out of scope. */
  lemma ReleaseEndsScope(m: WorkspaceManager, guard: Frame, b: Buffer)
    requires WellFormed(m) && Releasable(m, guard) && guard.Activated?
    requires m.spaces[guard.ws].depth == 1
    requires b.tag.Attached? && b.tag.owner == guard.ws
    ensures Release(m, guard).Ok? && !IsInScope(Release(m, guard).value, b)
  {
  }

  /**
    A buffer of a closed cycle (of any earlier generation, including a learning cycle
    whose end committed the pool) stays out of scope when the workspace starts its next cycle.
   */
  lemma NextCycleKeepsOldBuffersOut(m: WorkspaceManager, id: WsId, b: Buffer)
    requires WellFormed(m) && id in m.spaces && m.spaces[id].depth == 0
    requires b.tag.Attached? && b.tag.owner == id && b.tag.generation <= m.spaces[id].generation
    ensures !IsInScope(m, b)
    ensures !IsInScope(EnterScope(m, id).manager, b)
  {
  }

  /**
    Leveraging out of an inner workspace carves the copy from the enclosing workspace:
    the outer offset grows by the aligned size, the inner workspace is untouched and the
    copy is attached to the outer workspace.
   */
  lemma LeverageMovesToOuter(m: WorkspaceManager, b: Buffer, inner: WsId, outer: WsId)
    requires WellFormed(m) && inner != outer
    requires m.current == Some(inner) && |m.frames| > 0
    requires m.frames[|m.frames| - 1] == Activated(inner, Some(outer))
    requires m.spaces[outer].enabled && Fits(m.spaces[outer], Align(b.bytes))
    ensures Leverage(m, b).Ok?
    ensures Leverage(m, b).value.manager.spaces[outer].hostOffset == m.spaces[outer].hostOffset + Align(b.bytes)
    ensures Leverage(m, b).value.manager.spaces[inner] == m.spaces[inner]
    ensures Leverage(m, b).value.buffer.tag == Attached(outer, m.spaces[outer].generation)
  {
  }

  /**
    A workspace installed as current and then entered is its own guard's previous workspace:
    leveraging from it detaches the copy and leaves the manager as it was.
   */
  lemma LeverageFromSelfParentedDetaches(m: WorkspaceManager, b: Buffer, id: WsId)
    requires WellFormed(m) && m.current == Some(id) && |m.frames| > 0
    requires m.frames[|m.frames| - 1] == Activated(id, Some(id))
    ensures Leverage(m, b) == Ok(Created(m, Detach(b)))
  {
  }

  /** A leveraged copy outlives the inner scope it was made in, while the outer scope is open. */
  lemma LeveragedSurvivesInnerRelease(m: WorkspaceManager, b: Buffer, inner: WsId, outer: WsId)
    requires WellFormed(m) && inner != outer
    requires m.current == Some(inner) && |m.frames| > 0
    requires m.frames[|m.frames| - 1] == Activated(inner, Some(outer))
    requires m.spaces[inner].depth > 0 && m.spaces[outer].depth > 0
    requires m.spaces[outer].enabled && Fits(m.spaces[outer], Align(b.bytes))
    ensures Leverage(m, b).Ok?
    ensures Release(Leverage(m, b).value.manager, Activated(inner, Some(outer))).Ok?
    ensures IsInScope(Release(Leverage(m, b).value.manager, Activated(inner, Some(outer))).value,
                      Leverage(m, b).value.buffer)
  {
    LeverageMovesToOuter(m, b, inner, outer);
  }
}

=== FILE: outcomes.dfy ===
/** Option, Result and the error kinds the workspace engine reports. */
module Outcomes {

  /** An optional workspace reference, such as the thread's current workspace. */
  datatype Option<T> = Some(value: T) | None

  /** The two failures the workspace engine raises instead of returning a value. */
  datatype Fault =
    /** a request the pool cannot serve while the spill policy is FAIL */
    | CapacityExceeded
    /** a leave without a matching open enter, or a guard released out of order */
    | ScopeDisciplineViolation

  datatype Result<+T> = Ok(value: T) | Err(error: Fault)
}

=== FILE: scenarios.dfy ===
/**
  The workspace suite's tests replayed against the model: each method performs the
  test's requests and returns the values the test asserts; its `ensures` are the
  expected numbers. Every `Create(m, 1)` stands for the one-float argument buffer that
  a reduction such as `sumNumber` requests inside the current workspace.
 */
module Scenarios {
  import opened Outcomes
  import opened Sizing
  import opened Config
  import opened Arena
  import opened Manager

  const MiB: nat := 1024 * 1024

  /** The suite's `basicConfig`: a 10 MiB pool from construction. */
  const BasicConfig := WorkspaceConfiguration(10 * MiB, 10 * MiB, 10, Strict, FirstLoop, FullMirroring, External)

  /** The suite's `loopOverTimeConfig`: no pool until `initializeWorkspace`. */
  const LoopOverTimeConfig := WorkspaceConfiguration(0, 10 * MiB, 10, Strict, OverTime, FullMirroring, External)

  /** The suite's `loopFirstConfig`: the first cycle decides the pool size. */
  const LoopFirstConfig := WorkspaceConfiguration(0, 10 * MiB, 10, Strict, FirstLoop, FullMirroring, External)

  /** The name `getWorkspaceForCurrentThread` uses when none is given. */
  const DefaultId: string := "DEFAULT"

  method TestOutOfScope1() returns (firstOffset: nat, outsideAttached: bool, thirdOffset: nat)
    ensures firstOffset == 24 && !outsideAttached && thirdOffset == 48
  {
    var ext := Named("EXT");
    var g := GetAndActivateWorkspace(Empty(), BasicConfig, "EXT");
    var c1 := Create(g.manager, 5);
    var m := c1.value.manager;
    firstOffset := m.spaces[ext].hostOffset;
    var out := ScopeOutOfWorkspaces(m);
    var c2 := Create(out.manager, 5);
    outsideAttached := IsAttached(c2.value.buffer);
    var back := Release(c2.value.manager, out.guard);
    var c3 := Create(back.value, 5);
    m := c3.value.manager;
    thirdOffset := m.spaces[ext].hostOffset;
    var sum := Create(m, 1);
    var closed := Release(sum.value.manager, g.guard);
    assert closed.Ok?;
  }

  method TestLeverage1() returns (outerBefore: nat, innerOffset: nat, innerAfter: nat, outerAfter: nat,
                                  copyAttached: bool)
    ensures outerBefore == 0 && innerOffset == 24 && innerAfter == 24 && outerAfter == 24 && copyAttached
  {
    var ext, inner := Named("EXT"), Named("INT");
    var g1 := GetAndActivateWorkspace(Empty(), BasicConfig, "EXT");
    assert g1.manager.spaces[ext].hostOffset == 0;
    var g2 := GetAndActivateWorkspace(g1.manager, BasicConfig, "INT");
    var c := Create(g2.manager, 5);
    var m := c.value.manager;
    outerBefore := m.spaces[ext].hostOffset;
    innerOffset := m.spaces[inner].hostOffset;
    var lev := Leverage(m, c.value.buffer);
    m := lev.value.manager;
    innerAfter := m.spaces[inner].hostOffset;
    outerAfter := m.spaces[ext].hostOffset;
    copyAttached := IsAttached(lev.value.buffer);
  }

  method TestCreateDetached1() returns (offset: nat, targetAttached: bool)
    ensures offset == 24 && !targetAttached
  {
    var g := GetAndActivateWorkspace(Empty(), BasicConfig, "ITER");
    var c := Create(g.manager, 5);
    var target := CreateUninitializedDetached(5);
    offset := c.value.manager.spaces[Named("ITER")].hostOffset;
    targetAttached := IsAttached(target);
  }

  method TestDetach1() returns (arrayInScope: bool, arrayAttached: bool, copyAttached: bool,
                                copyInScope: bool, offset: nat)
    ensures arrayInScope && arrayAttached && !copyAttached && copyInScope && offset == 24
  {
    var g := GetAndActivateWorkspace(Empty(), BasicConfig, "ITER");
    var c := Create(g.manager, 5);
    var m := c.value.manager;
    var copy := Detach(c.value.buffer);
    arrayInScope := IsInScope(m, c.value.buffer);
    arrayAttached := IsAttached(c.value.buffer);
    copyAttached := IsAttached(copy);
    copyInScope := IsInScope(m, copy);
    offset := m.spaces[Named("ITER")].hostOffset;
    var closed := Release(m, g.guard);
    assert IsInScope(closed.value, copy);
  }

  method TestScope2() returns (firstInScope: bool, firstSize: nat, secondInScope: bool, secondOffset: nat,
                               afterInScope: bool)
    ensures firstInScope && firstSize == 0 && secondInScope && secondOffset == 400 && !afterInScope
  {
    var iter := Named("ITER");
    var g := GetAndActivateWorkspace(Empty(), LoopFirstConfig, "ITER");
    assert g.manager.spaces[iter] == Enter(New(LoopFirstConfig));
    var c := Create(g.manager, 100);
    assert c.value.manager.spaces[iter] == Enter(New(LoopFirstConfig)).(cycleBytes := 400);
    firstInScope := IsInScope(c.value.manager, c.value.buffer);
    firstSize := c.value.manager.spaces[iter].currentSize;
    var m := Release(c.value.manager, g.guard).value;
    assert m.spaces[iter].currentSize == 400 && m.spaces[iter].depth == 0;
    g := GetAndActivateWorkspace(m, LoopFirstConfig, "ITER");
    assert g.manager.current == Some(iter);
    assert g.manager.spaces[iter] == Enter(m.spaces[iter]);
    c := Create(g.manager, 100);
    assert c.value.manager.spaces[iter].hostOffset == 400;
    secondInScope := IsInScope(c.value.manager, c.value.buffer);
    secondOffset := c.value.manager.spaces[iter].hostOffset;
    m := Release(c.value.manager, g.guard).value;
    afterInScope := IsInScope(m, c.value.buffer);
  }

  method TestScope1() returns (inScope: bool, afterInScope: bool)
    ensures inScope && !afterInScope
  {
    var g := GetAndActivateWorkspace(Empty(), BasicConfig, "ITER");
    var c := Create(g.manager, 100);
    inScope := IsInScope(c.value.manager, c.value.buffer);
    var m := Release(c.value.manager, g.guard).value;
    afterInScope := IsInScope(m, c.value.buffer);
  }

  method TestIsAttached1() returns (insideAttached: bool, outsideAttached: bool)
    ensures insideAttached && !outsideAttached
  {
    var g := GetAndActivateWorkspace(Empty(), LoopFirstConfig, "ITER");
    var c := Create(g.manager, 100);
    insideAttached := IsAttached(c.value.buffer);
    var m := Release(c.value.manager, g.guard).value;
    var outside := Create(m, 100);
    outsideAttached := IsAttached(outside.value.buffer);
  }

  /**
    Serves `elements` floats from a workspace that is the thread's current one, as in the
    tests that install a workspace with `setCurrentWorkspace` and drive its scopes directly.
   */
  function Take(ws: Workspace, elements: nat): (r: Workspace)
    requires ws.config.policySpill == External
    ensures Allocate(ws, BytesOf(elements)).Ok?
  {
    Allocate(ws, BytesOf(elements)).value.ws
  }

  const OverallocateOverTime := WorkspaceConfiguration(0, 10 * MiB, 100, Overallocate, OverTime, FullMirroring, External)

  method TestOverallocation3() returns (sizeBefore: nat, sizeAfterCycles: nat, committed: nat)
    ensures sizeBefore == 0 && sizeAfterCycles == 0 && committed == 800
  {
    var ws := New(OverallocateOverTime);
    sizeBefore := ws.currentSize;
    var x := 10;
    while x <= 100
      invariant 10 <= x <= 110 && x % 10 == 0
      invariant ws.config == OverallocateOverTime && ws.enabled
      invariant ws.currentSize == 0 && ws.depth == 0
      invariant ws.learnedMax == Align(BytesOf(x - 10))
    {
      var learned := ws.learnedMax;
      ws := Take(Enter(ws), x);
      assert ws.cycleBytes == Align(BytesOf(x)) && ws.depth == 1;
      ws := Leave(ws).value;
      assert ws.learnedMax == Max(learned, Align(BytesOf(x)));
      AlignMonotone(BytesOf(x - 10), BytesOf(x));
      x := x + 10;
    }
    assert ws.learnedMax == Align(BytesOf(100)) == 400;
    sizeAfterCycles := ws.currentSize;
    CommitDoublesUnderFullOverallocation(OverallocateOverTime, 400);
    committed := Initialize(ws).currentSize;
  }

  const OverallocateFirstLoop := WorkspaceConfiguration(0, 10 * MiB, 100, Overallocate, FirstLoop, FullMirroring, External)

  method TestOverallocation2() returns (sizeBefore: nat, committed: nat)
    ensures sizeBefore == 0 && committed == 800
  {
    var ws := New(OverallocateFirstLoop);
    sizeBefore := ws.currentSize;
    ws := Take(Enter(ws), 100);
    CommitDoublesUnderFullOverallocation(OverallocateFirstLoop, 400);
    committed := Leave(ws).value.currentSize;
  }

  method TestOverallocation1() returns (size: nat)
    ensures size == 2048
  {
    var config := WorkspaceConfiguration(1024, 10 * MiB, 100, Overallocate, NoLearning, FullMirroring, External);
    var r := CreateNewWorkspace(Empty(), config);
    CommitDoublesUnderFullOverallocation(config, 1024);
    size := r.manager.spaces[r.id].currentSize;
  }

  method TestToggle1() returns (offsetAfterFirst: nat, sizeAfterFirst: nat, offsetAfterToggle: nat,
                                finalOffset: nat)
    ensures offsetAfterFirst == 0 && sizeAfterFirst == 800 && offsetAfterToggle == 400 && finalOffset == 800
  {
    var ws := New(LoopFirstConfig);
    // first cycle: the pool is still uncommitted, so the two counted requests spill;
    // the hidden ones (the detached array and the argument of its sum) are not counted
    ws := Take(Enter(ws), 100);
    ws := ToggleWorkspaceUse(ws, false);
    ws := Take(Take(ws, 100), 1);
    ws := ToggleWorkspaceUse(ws, true);
    ws := Take(ws, 100);
    assert ws.cycleBytes == 800 && ws.currentSize == 0;
    ws := Leave(ws).value;
    offsetAfterFirst := ws.hostOffset;
    sizeAfterFirst := ws.currentSize;
    // second cycle: served from the 800-byte pool
    ws := Take(Enter(ws), 100);
    ws := ToggleWorkspaceUse(ws, false);
    ws := Take(Take(ws, 100), 1);
    ws := ToggleWorkspaceUse(ws, true);
    offsetAfterToggle := ws.hostOffset;
    finalOffset := Take(ws, 100).hostOffset;
  }

  method TestLoop4() returns (offsetAfterFirst: nat, sizeAfterFirst: nat, offsetInSecond: nat,
                              offsetAfterSecond: nat)
    ensures offsetAfterFirst == 0 && sizeAfterFirst == 800 && offsetInSecond == 400 && offsetAfterSecond == 0
  {
    var ws := New(LoopFirstConfig);
    ws := Take(Take(Enter(ws), 100), 100);
    ws := Leave(ws).value;
    offsetAfterFirst := ws.hostOffset;
    sizeAfterFirst := ws.currentSize;
    ws := Take(Enter(ws), 100);
    offsetInSecond := ws.hostOffset;
    offsetAfterSecond := Leave(ws).value.hostOffset;
  }

  method TestLoops3() returns (offsetDuring: nat, sizeDuring: nat, offsetAfter: nat, sizeAfter: nat)
    ensures offsetDuring == 0 && sizeDuring == 0 && offsetAfter == 0 && sizeAfter == 440
  {
    var ws := New(LoopFirstConfig);
    ws := Take(Take(Enter(ws), 100), 10);
    offsetDuring := ws.hostOffset;
    sizeDuring := ws.currentSize;
    ws := Leave(ws).value;
    offsetAfter := ws.hostOffset;
    sizeAfter := ws.currentSize;
  }

  method TestLoops2() returns (committed: nat, offsetAfterInit: nat, hotOffset: nat)
    ensures committed == 400 && offsetAfterInit == 0 && hotOffset == 40
  {
    var ws := New(LoopOverTimeConfig);
    var x := 1;
    while x <= 100
      invariant 1 <= x <= 101
      invariant ws.config == LoopOverTimeConfig && ws.enabled
      invariant ws.currentSize == 0 && ws.hostOffset == 0 && ws.depth == 0
      invariant ws.learnedMax == Align(BytesOf(x - 1))
    {
      ws := Take(Enter(ws), x);
      assert ws.hostOffset == 0 && ws.currentSize == 0;
      ws := Leave(ws).value;
      AlignMonotone(BytesOf(x - 1), BytesOf(x));
      x := x + 1;
    }
    ws := Initialize(ws);
    committed := ws.currentSize;
    offsetAfterInit := ws.hostOffset;
    ws := Take(Enter(ws), 10);
    hotOffset := ws.hostOffset;
    assert Leave(ws).Ok?;
  }

  method TestLoops1() returns (coldOffset: nat, coldSize: nat, committed: nat, finalOffset: nat)
    ensures coldOffset == 0 && coldSize == 0 && committed == 48 && finalOffset == 0
  {
    var ws := New(LoopOverTimeConfig);
    ws := Take(Enter(ws), 10);
    coldOffset := ws.hostOffset;
    coldSize := ws.currentSize;
    ws := Leave(Take(ws, 1)).value;
    ws := Initialize(ws);
    committed := ws.currentSize;
    var x := 0;
    while x < 10
      invariant 0 <= x <= 10
      invariant ws.config == LoopOverTimeConfig && ws.enabled
      invariant ws.currentSize == 48 && ws.hostOffset == 0 && ws.depth == 0
    {
      ws := Take(Enter(ws), 10);
      assert ws.hostOffset == 40;
      ws := Leave(Take(ws, 1)).value;
      x := x + 1;
    }
    finalOffset := ws.hostOffset;
  }

  method TestAllocation6() returns (afterRand: nat, afterDup: nat)
    ensures afterRand == 4000 && afterDup == 8000
  {
    // rand(100, 10, 10) is a 100 x 10 matrix (the last argument is the seed): 1000 floats;
    // dup() asks for as many again
    var ws := New(BasicConfig);
    assert BytesOf(1000) == 4000 && Align(4000) == 4000;
    ws := Take(ws, 100 * 10);
    afterRand := ws.hostOffset;
    afterDup := Take(ws, 100 * 10).hostOffset;
  }

  method TestAllocation5() returns (afterCreate: nat, afterDup: nat)
    ensures afterCreate == 24 && afterDup == 48
  {
    var ws := Take(New(BasicConfig), 1 * 5);
    afterCreate := ws.hostOffset;
    afterDup := Take(ws, 5).hostOffset;
  }

  method TestAllocation4() returns (before: nat, refused: bool, afterRefusal: nat, after: nat)
    ensures before == 24 && refused && afterRefusal == 24 && after == 48
  {
    var failConfig := WorkspaceConfiguration(MiB, MiB, 10, Strict, FirstLoop, FullMirroring, Fail);
    var ws := New(failConfig);
    ws := Allocate(ws, BytesOf(5)).value.ws;
    before := ws.hostOffset;
    var big := Allocate(ws, BytesOf(10000000));
    refused := big == Err(CapacityExceeded);
    afterRefusal := ws.hostOffset;
    after := Allocate(ws, BytesOf(5)).value.ws.hostOffset;
  }

  /** testAllocation1, 2 and 3: a five-float buffer in the thread's default workspace. */
  method TestAllocationDefaultWorkspace() returns (offset: nat, attached: bool)
    ensures offset == 24 && attached
  {
    var m := GetWorkspaceForCurrentThread(Empty(), BasicConfig, DefaultId);
    m := SetCurrentWorkspace(m, Some(Named(DefaultId)));
    assert m.spaces[Named(DefaultId)].hostOffset == 0;
    var c := Create(m, 5);
    offset := c.value.manager.spaces[Named(DefaultId)].hostOffset;
    attached := IsAttached(c.value.buffer);
  }
}

=== FILE: sizing.dfy ===
/**
  Byte arithmetic of the workspace: the alignment unit every pool offset is kept on,
  the overallocation coefficient, and the cap on the pool size.
 */
module Sizing {

  /** Bytes per element: the suite switches the data type to single-precision floats. */
  const ElementSize: nat := 4

  /** Every request is rounded up to this many bytes before it touches the pool. */
  const Alignment: nat := 8

  /** Bytes occupied by `elements` single-precision values. */
  function BytesOf(elements: nat): nat {
    elements * ElementSize
  }

  /** Rounds a byte count up to the next multiple of the alignment unit. */
  function Align(bytes: nat): (r: nat)
    ensures r % Alignment == 0
    ensures bytes <= r < bytes + Alignment
  {
    var rem := bytes % Alignment;
    if rem == 0 then bytes else bytes + (Alignment - rem)
  }

  /** `Align` is the least multiple of the alignment unit that holds `bytes`. */
  lemma AlignIsLeast(bytes: nat, m: nat)
    requires m % Alignment == 0 && bytes <= m
    ensures Align(bytes) <= m
  {
  }

  lemma AlignMonotone(a: nat, b: nat)
    requires a <= b
    ensures Align(a) <= Align(b)
  {
    AlignIsLeast(a, Align(b));
  }

  lemma AlignOfAligned(bytes: nat)
    requires bytes % Alignment == 0
    ensures Align(bytes) == bytes
  {
  }

  /**
    The expected-offset expression the suite writes for a request of `bytes`:
    the remainder modulo 8 is added once instead of being rounded up.
   */
  function SuiteRounding(bytes: nat): nat {
    bytes + bytes % Alignment
  }

  /** For whole floats the suite's expression coincides with real 8-byte rounding. */
  lemma SuiteRoundingAgrees(bytes: nat)
    requires bytes % ElementSize == 0
    ensures SuiteRounding(bytes) == Align(bytes)
  {
    var q := bytes / Alignment;
    assert bytes == Alignment * q + bytes % Alignment;
    assert bytes % Alignment == 0 || bytes % Alignment == 4;
  }

  /**
    The suite's expression lands on the alignment unit exactly when the byte count is a
    multiple of four: a two-byte type with five elements (10 bytes) would be expected at 12.
   */
  lemma SuiteRoundingMisaligns(bytes: nat)
    ensures SuiteRounding(bytes) % Alignment == 0 <==> bytes % 4 == 0
  {
    var q := bytes / Alignment;
    var rem := bytes % Alignment;
    assert bytes == Alignment * q + rem;
    if rem < 4 {
      assert SuiteRounding(bytes) == Alignment * q + 2 * rem;
      assert SuiteRounding(bytes) % Alignment == 2 * rem;
      assert bytes == 4 * (2 * q) + rem;
      assert bytes % 4 == rem;
    } else {
      assert SuiteRounding(bytes) == Alignment * (q + 1) + (2 * rem - Alignment);
      assert SuiteRounding(bytes) % Alignment == 2 * rem - Alignment;
      assert bytes == 4 * (2 * q + 1) + (rem - 4);
      assert bytes % 4 == rem - 4;
    }
  }

  /** Two aligned sizes placed one after the other end on the alignment unit. */
  lemma AlignedSum(a: nat, b: nat)
    requires a % Alignment == 0 && b % Alignment == 0
    ensures (a + b) % Alignment == 0
  {
    assert a + b == Alignment * (a / Alignment + b / Alignment);
  }

  /**
    Inflates an aligned byte count by `percent` per cent of extra capacity (the
    overallocation limit, 1.0 written as 100) and re-aligns the result.
   */
  function WithOverallocation(bytes: nat, percent: nat): (r: nat)
    ensures r % Alignment == 0
    ensures bytes + bytes * percent / 100 <= r < bytes + bytes * percent / 100 + Alignment
  {
    Align(bytes + bytes * percent / 100)
  }

  /** An overallocation limit of 1.0 doubles an aligned size. */
  lemma OverallocationDoubles(bytes: nat)
    requires bytes % Alignment == 0
    ensures WithOverallocation(bytes, 100) == 2 * bytes
  {
    assert bytes * 100 / 100 == bytes;
    AlignOfAligned(2 * bytes);
  }

  /** The larger of two byte counts. */
  function Max(a: nat, b: nat): (r: nat)
    ensures r >= a && r >= b
    ensures r == a || r == b
  {
    if a >= b then a else b
  }

  /** Caps a size at `maxSize`; a zero cap means the pool may grow without bound. */
  function Clamp(bytes: nat, maxSize: nat): (r: nat)
    ensures maxSize == 0 ==> r == bytes
    ensures maxSize > 0 ==> r <= maxSize && r <= bytes && (r == bytes || r == maxSize)
  {
    if maxSize > 0 && bytes > maxSize then maxSize else bytes
  }
}
